=== FILE: README.md ===
# NeuChar `MessageHandler` inbound pipeline — a Dafny model

This project models the part of NeuChar's `MessageHandler<TMC, TRequest, TResponse>` that handles
one inbound message for one account. It covers four pieces:

- **Admission** (`CommonInitialize`). Deduplication is switched on and the platform's `Init` binds
  the request. The request is compared with the account's last recorded request using the message-id
  and creation-time rule, and the platform's optional extra rule may also apply. A repeat is marked
  (`MarkRepeatedMessage` sets `MessageIsRepeated` and `CancelExcute`). Otherwise the request is
  appended to the account's history, provided its type is known.
- **The `Execute` lifecycle.** Cancellation is checked before and after the pre-execute hook `OnExecuting`.
  The build step `BuildResponseMessage` runs inside a try/catch/finally. A successful reply that names
  its sender is recorded. A failed build is wrapped in a `MessageHandlerException`. The post-execute hook
  `OnExecuted` runs in the finally clause.
- **`TextResponseMessage`.** The reply-text getter picks, in this order, a success sentinel's return
  text, an explicitly set text, the empty string, or the rendered final document. The setter writes the
  backing field.
- **`CreateResponseMessage`.** It returns null without a bound request. Otherwise it hands the request to
  the platform's enlightener.

All state is immutable:

- A `Handler` record holds the flags and the bound messages.
- A `MessageContext` holds one account's request and reply histories.
- A `Config` holds the global switches and the two deduplication delegates.

The overridable steps (`Init`, `OnExecuting`, `BuildResponseMessage`, `OnExecuted`) and the delegates
are function parameters. Each lifecycle step (admission, the try block, `Execute`, one whole delivery) returns the new
state, the history, and the sequence of hooks it invoked (a `seq<Hook>` trace). Properties about which hooks ran are stated over that trace.

Modules, in dependency order:

- `Entities` holds requests, replies and `Option`.
- `MessageContext` holds the history and its insertion under a retention bound.
- `Handler` holds the handler state, the reply text and the reply factory.
- `Deduplication` is the admission step.
- `Execution` is `Execute`.
- `Pipeline` has construction followed by execution, plus properties over sequences of deliveries.

`Pipeline.Deliver` states directly how one delivery changes the history.
`Pipeline.DeliverIsCommonInitialize` proves it agrees with `CommonInitialize`. The multi-delivery lemmas
are stated over `Deliver`.

## Model

| member | source | states |
|---|---|---|
| Entities.NeuCharRequest | src/Senparc.NeuChar/Entities/Base/Request/RequestMessageNeuChar.cs:43-46 | a NeuChar request's type is fixed by its class and is never `Unknown`; the other fields are kept as given |
| Handler.MarkRepeatedMessage | src/Senparc.NeuChar/MessageHandlers/MessageHandler.cs:350-354 | afterwards the message is both flagged repeated and cancelled; no other field changes |
| Handler.TextResponseMessage | src/Senparc.NeuChar/MessageHandlers/MessageHandler.cs:303-330 | precedence of the reply text: a success sentinel's return text overwrites the backing field; a stored text is returned as is; with nothing stored, no reply or a no-response marker gives `""`, and any other reply gives the final document or `""` |
| Handler.SetTextResponseMessage | src/Senparc.NeuChar/MessageHandlers/MessageHandler.cs:331 | the setter changes only the backing field |
| Handler.ReadAfterSet | src/Senparc.NeuChar/MessageHandlers/MessageHandler.cs:303-331 | without a success sentinel, a text that was set is exactly the text read back |
| Handler.SuccessOverridesSetText | src/Senparc.NeuChar/MessageHandlers/MessageHandler.cs:307-310 | with a success sentinel, setting a text beforehand has no effect on the read |
| Handler.ReadIsStable | src/Senparc.NeuChar/MessageHandlers/MessageHandler.cs:305-330 | the getter's write-back is stable: a second read returns the same text and stores the same value |
| Handler.CreateResponseMessage | src/Senparc.NeuChar/MessageHandlers/MessageHandler.cs:493-501 | null exactly when no request is bound; with an enlightener that addresses replies to the sender, the reply has the asked kind and swapped sender and recipient |
| MessageContext.InsertRequest | src/Senparc.NeuChar/MessageHandlers/MessageHandler.cs:423-426 | recording a request makes it the newest history entry; what remains is a suffix of the old history plus the request, cut to the retention bound; replies are untouched |
| MessageContext.InsertRequestWithRoom | src/Senparc.NeuChar/MessageHandlers/MessageHandler.cs:423-426 | while the history has room, recording a request is a plain append |
| MessageContext.AppendEvictsOldest | src/Senparc.NeuChar/MessageHandlers/MessageHandler.cs:373 | the reading of the history bound this model takes: inserting into a full history drops exactly its oldest entry |
| MessageContext.InsertResponse | src/Senparc.NeuChar/MessageHandlers/MessageHandler.cs:545-548 | recording a reply makes it the newest reply entry under the retention bound; requests are untouched |
| Deduplication.CoreRepeat | src/Senparc.NeuChar/MessageHandlers/MessageHandler.cs:401-408 | the identity rule: a repeat always carries the same message id, and every message repeats itself |
| Deduplication.CheckRepeat | src/Senparc.NeuChar/MessageHandlers/MessageHandler.cs:397-418 | flagged exactly when already flagged, or the identity rule fires, or the platform rule says so; the platform rule is asked only if neither of the first two holds; only the two flags change, and a new flag comes with cancellation |
| Deduplication.Deduplicate | src/Senparc.NeuChar/MessageHandlers/MessageHandler.cs:379-428 | with contexts off nothing happens; otherwise a message is newly flagged exactly when the delegate allows, `OmitRepeatedMessage` is on, the history is non-empty and a rule fires; the platform rule and the delegate each appear in the trace exactly when they are consulted; the request is appended once exactly when it is not flagged and its type is known, and the history is otherwise untouched; repeated implies cancelled is preserved |
| Deduplication.CommonInitialize | src/Senparc.NeuChar/MessageHandlers/MessageHandler.cs:369-430 | `Init` runs after deduplication has been switched on; the bound request and the switch are what `Init` left; repeated implies cancelled holds if it held after `Init` |
| Deduplication.OmitRepeatedMessageDefaultsOn | src/Senparc.NeuChar/MessageHandlers/MessageHandler.cs:371-411 | with an `Init` that only binds the request, deduplication is on; a request matching the last one is flagged and not recorded |
| Deduplication.SecondClauseOnlyForUnsetIds | src/Senparc.NeuChar/MessageHandlers/MessageHandler.cs:401-408 | the creation-time clause adds to the id clause only when both ids are zero; then it decides alone |
| Execution.Wrap | src/Senparc.NeuChar/MessageHandlers/MessageHandler.cs:551-555 | a build failure is re-raised as a `MessageHandlerException` whose inner exception is the original and whose message is the fixed prefix followed by the original message |
| Execution.RecordsResponse | src/Senparc.NeuChar/MessageHandlers/MessageHandler.cs:545 | the recording condition: nothing is recorded with contexts off, and a recorded reply always names a sender |
| Execution.TryBlock | src/Senparc.NeuChar/MessageHandlers/MessageHandler.cs:534-550 | without a request nothing is built; the history changes only after a successful build whose reply is recorded; an error escapes exactly when the build threw |
| Execution.Execute | src/Senparc.NeuChar/MessageHandlers/MessageHandler.cs:513-561 | cancelled beforehand: no hook runs and nothing changes; hooks run only in lifecycle order; `OnExecuted` runs exactly once when the try block is entered and never otherwise; the build runs exactly when the try block is entered with a bound request; an `OnExecuting` exception escapes unwrapped and a build exception is wrapped in the catch and re-raised after `OnExecuted`; the final handler is what the last hook that ran left (a cancelling `OnExecuting`, else `OnExecuted` applied to the built state or, without a request, to the state `OnExecuting` left); an error escapes exactly in those two cases; the reply is appended exactly when the build returned, contexts are on and the reply names its sender |
| Pipeline.Handle | src/Senparc.NeuChar/MessageHandlers/MessageHandler.cs:369-561 | a repeat runs no lifecycle hook, raises nothing and records nothing; construction alone decides the request history; the reply history changes only if the build ran |
| Pipeline.Deliver | src/Senparc.NeuChar/MessageHandlers/MessageHandler.cs:391-426 | one delivery to an account, stated directly: replies are untouched, and the history either stays as it was or gains only the request, losing only its oldest entries |
| Pipeline.DeliverIsCommonInitialize | src/Senparc.NeuChar/MessageHandlers/MessageHandler.cs:369-430 | the direct statement of one delivery agrees with `CommonInitialize` under an `Init` that only binds the request, both in the history and in the repeat flag |
| Pipeline.NeuCharRequestIsRecorded | src/Senparc.NeuChar/MessageHandlers/MessageHandler.cs:423-426 | with contexts on, a NeuChar request that is not a redelivery is always recorded |
| Pipeline.DeliverNew | src/Senparc.NeuChar/MessageHandlers/MessageHandler.cs:391-426 | with contexts on and no platform rule, a known-type request that does not repeat the last one is appended, when the history has room |
| Pipeline.DeliverRepeat | src/Senparc.NeuChar/MessageHandlers/MessageHandler.cs:391-426 | with contexts on and the per-message delegate allowing deduplication, a request that repeats the last one leaves the history unchanged |
| Pipeline.DeliverAllNew | src/Senparc.NeuChar/MessageHandlers/MessageHandler.cs:423-426 | delivering a new request and then more is delivering the rest to the history with that request appended |
| Pipeline.RecordingInInitFlagsItsOwnMessage | src/Senparc.NeuChar/MessageHandlers/MessageHandler.cs:478-480 | an `Init` that recorded the current message, as its documentation asks, would make the comparison at lines 399-411 flag every message as its own repeat and record nothing more |
| Pipeline.DeliverAll | src/Senparc.NeuChar/MessageHandlers/MessageHandler.cs:391-426 | a run of deliveries to one account, one after another; the reply history is untouched |
| Pipeline.DeliverAllConcat | src/Senparc.NeuChar/MessageHandlers/MessageHandler.cs:391-426 | delivering one run and then another is delivering their concatenation |
| Pipeline.DeliverAllFresh | src/Senparc.NeuChar/MessageHandlers/MessageHandler.cs:391-426 | without a platform rule, a run of known-type requests none of which repeats its predecessor is appended in full when the history has room |
| Pipeline.RedeliveryAfterAnotherIsRecorded | src/Senparc.NeuChar/MessageHandlers/MessageHandler.cs:399-408 | only the last request is compared: messages 1, 2, 1 delivered into an unbounded history are all recorded, the second 1 included |
| Pipeline.RedeliveryIsFlagged | src/Senparc.NeuChar/MessageHandlers/MessageHandler.cs:399-426 | a known-type message that is not a redelivery is recorded; delivering it again is then flagged and leaves the history unchanged (delivery is idempotent) |
| Pipeline.DeliverKeepsBound | src/Senparc.NeuChar/MessageHandlers/MessageHandler.cs:423-426 | one delivery keeps the history within a bounded retention |
| Pipeline.HistoryStaysBounded | src/Senparc.NeuChar/MessageHandlers/MessageHandler.cs:423-426 | no run of deliveries makes the history longer than a bounded retention |
| Pipeline.HistoryHoldsOnlyDeliveries | src/Senparc.NeuChar/MessageHandlers/MessageHandler.cs:423-426 | every request in the history was there before or is one of the delivered requests |
| Pipeline.ScenarioRedeliveredOnce | src/Senparc.NeuChar/MessageHandlers/MessageHandler.cs:391-426 | messages 1, 2, 3, 3, 4 delivered into an empty history of five leave exactly 1, 2, 3, 4 |
| Pipeline.RepeatAnsweredWithEmptyText | src/Senparc.NeuChar/MessageHandlers/MessageHandler.cs:312-316 | a repeated message consults only the delegate, records nothing, and its reply text is empty |
| Pipeline.FactoryReplyIsRecorded | src/Senparc.NeuChar/MessageHandlers/MessageHandler.cs:545-548 | with contexts on, and given an enlightener that addresses every reply back to the sender (an assumption, see "Left out"), a factory reply to a request whose recipient is set names its sender, so it is recorded |
| Pipeline.DedupOffViaInitReachesBuild | src/Senparc.NeuChar/MessageHandlers/MessageHandler.cs:371-375 | with contexts on, no platform rule and the default pre-execute hook, an `Init` that clears `OmitRepeatedMessage` lets a literal redelivery pass admission and reach the build step |
| Deduplication.RepeatEscapesOnlyWhenSwitchedOff | src/Senparc.NeuChar/MessageHandlers/MessageHandler.cs:371-411 | with contexts on and a message that repeats the last one, it escapes the flag exactly when the per-message delegate declines it or `Init` cleared `OmitRepeatedMessage`: these are the only two switches for one message |

Notes on how the code is read:

- `CommonInitialize` sets `OmitRepeatedMessage` to true before `Init` runs. In the two constructors
  that call it (lines 442 and 454), deduplication then runs inside the constructor. So a caller who
  sets `OmitRepeatedMessage = false` on a constructed handler affects nothing. Only an `Init` override
  can turn deduplication off for the current message, besides the per-message delegate
  (`Deduplication.RepeatEscapesOnlyWhenSwitchedOff`) and the global `UseMessageContext` switch. The model follows the code here
  (`Pipeline.DedupOffViaInitReachesBuild`), not the option's description, which reads like a plain
  on/off switch.
- A success sentinel whose return text is null still overwrites the backing field. A text set
  explicitly is then lost, and the getter falls through to the final document.
- The meaning of `maxRecordCount` is not visible here, and every constructor defaults it to 0. The model
  leaves it open: `Retention` is a free parameter, so no particular reading of 0 is assumed.
- Deduplication compares with the account's last request only (lines 399-408). A message redelivered
  after another one has arrived is recorded again (`Pipeline.RedeliveryAfterAnotherIsRecorded`);
  only an immediate redelivery is caught.
- The documentation of `Init` (lines 478-480) asks it to add the current message to the context when
  contexts are on, but the admission block that follows records the message itself (lines 423-426).
  An `Init` that did both would see every message flagged as its own repeat
  (`Pipeline.RecordingInInitFlagsItsOwnMessage`). The model's `Init` changes handler fields only.

## Left out

- The distributed lock around the deduplication block: the block is modelled as one atomic step.
- APM telemetry (`DataOperation`, `Task.Factory.StartNew`): fire-and-forget calls with no effect on the handler's state.
- `ExecuteStatTime`: `Execute` stamps this protected property with the wall clock (line 516) before the first cancellation check. The `Handler` record leaves it out, because only the telemetry in the finally clause (line 559) reads it; a hook that reads it is not modelled.
- XML parsing, decryption and serialisation (`Init`, `ResponseDocument`, `FinalResponseDocument`): `Init` is a function parameter and the final document an optional string.
- `GlobalMessageContext` (the per-account registry, its keying, expiry and `MaxRecordCount` eviction) is not part of this model: the context of the one account is passed in and out, and eviction is the `Retention` parameter, taken to drop the oldest entries.
- The `NeuralSystem` node lookups, the obsolete alias accessors, `PostModel` and the encryption flags: global configuration unrelated to the message logic.
- The constructor taking a `RequestMessageBase` (lines 464-475) is meant for tests and never calls
  `CommonInitialize`: no `Init` runs, `OmitRepeatedMessage` keeps its default `false`, nothing is
  deduplicated and no request is recorded. It is not modelled; every handler here is built by the
  two constructors that call `CommonInitialize`.
- `MessageQueue` is a list subclass with no behaviour of its own.
- Deduplication.Deduplicate: requires a bound request whenever contexts are on, because the source dereferences a null request there and crashes; the crash is not modelled.
- Execution.Execute: `OnExecuted` is taken not to throw, so an exception from the finally clause replacing the one in flight is not modelled.
- Execution.Execute: the hooks change the handler state only; a hook writing to the account's history directly is not modelled.
- Handler.TextResponseMessage: the final document's rendering is an opaque optional string; its XML text is not modelled.
- Handler.CreateResponseMessage: the reply type parameter is folded into a `ResponseKind` value, and the enlightener is a total function. How the request's own `CreateResponseMessage<TR>` addresses the reply is not part of this model; that it swaps sender and recipient is stated as the assumption `AddressesReplyToSender`, not proved.
- Pipeline.FactoryReplyIsRecorded: holds only for an enlightener that addresses replies back to the sender, which is assumed, not taken from the source.
- Deduplication.CommonInitialize: `Init` is modelled as a change to the handler's fields only. It cannot write the account's history, throw, or install the two delegates; the delegates in `Config` stand for whatever `Init` installed before they are read (both are null at construction). `SpecialDeduplicationAction` receives the handler and could change it; the model's delegate only answers yes or no and is taken to have no side effects.

=== FILE: deduplication.dfy ===
/**
  The admission step run while a handler is constructed: the duplicate check
  against the account's last recorded request, and the recording of the new
  request into the account's history. The distributed lock that guards the
  step is taken to make it atomic.
 */
module Deduplication {
  import opened Entities
  import opened MessageContext
  import opened Handler

  /**
    The identity rule: the same nonzero message id, or the same id (zero
    included) with the same creation time and message type.
   */
  predicate CoreRepeat(last: Request, req: Request): (r: bool)
    // a repeat always carries the same id, and every message repeats itself
    ensures r ==> last.msgId == req.msgId
    ensures last == req ==> r
  {
    || (last.msgId != 0 && last.msgId == req.msgId)
    || (last.msgId == req.msgId && last.createTime == req.createTime && last.msgType == req.msgType)
  }

  /** The delegate lets deduplication run for this request: a null delegate does. */
  predicate OmitFuncAllows(cfg: Config, req: Request) {
    cfg.omitRepeatedMessageFunc.None? || cfg.omitRepeatedMessageFunc.value(req)
  }

  /** Every switch is on and there is a last request to compare against. */
  predicate GatesOpen(h: Handler, cfg: Config, req: Request, ctx: MessageContext) {
    && cfg.useMessageContext
    && OmitFuncAllows(cfg, req)
    && h.omitRepeatedMessage
    && |ctx.requestMessages| > 0
  }

  /** The platform's extra rule is present and calls the request a repeat. */
  predicate SpecialSaysRepeat(h: Handler, cfg: Config, req: Request) {
    cfg.specialDeduplicationAction.Some? && cfg.specialDeduplicationAction.value(req, h)
  }

  /** The handler state, history and hook trace left by the admission step. */
  datatype Admission = Admission(handler: Handler, context: MessageContext, trace: seq<Hook>)

  /** The handler state and hook trace left by the comparison with the last request. */
  datatype Checked = Checked(handler: Handler, trace: seq<Hook>)

  /** The comparison against the last request, then the platform rule if the first did not fire. */
  function CheckRepeat(h: Handler, cfg: Config, req: Request, last: Request): (r: Checked)
    ensures r.handler.(messageIsRepeated := h.messageIsRepeated, cancelExecute := h.cancelExecute) == h
    ensures r.handler.messageIsRepeated <==> h.messageIsRepeated || CoreRepeat(last, req) || SpecialSaysRepeat(h, cfg, req)
    ensures !r.handler.messageIsRepeated ==> r.handler == h
    ensures h.cancelExecute ==> r.handler.cancelExecute
    ensures !h.messageIsRepeated && r.handler.messageIsRepeated ==> r.handler.cancelExecute
    ensures (h.messageIsRepeated ==> h.cancelExecute) ==> (r.handler.messageIsRepeated ==> r.handler.cancelExecute)
    ensures r.trace == if !h.messageIsRepeated && !CoreRepeat(last, req) && cfg.specialDeduplicationAction.Some?
                       then [SpecialDeduplicationAction] else []
  {
    var h1 := if CoreRepeat(last, req) then MarkRepeatedMessage(h) else h;
    if !h1.messageIsRepeated && cfg.specialDeduplicationAction.Some? then
      Checked(if cfg.specialDeduplicationAction.value(req, h1) then MarkRepeatedMessage(h1) else h1,
              [SpecialDeduplicationAction])
    else
      Checked(h1, [])
  }

  /**
    The deduplication block of `CommonInitialize`: the request, once bound,
    is compared with the account's last request, and is recorded unless it
    was flagged or its type is unknown.
   */
  function Deduplicate(h: Handler, cfg: Config, ctx: MessageContext): (r: Admission)
    requires cfg.useMessageContext ==> h.requestMessage.Some?
    // with the context switch off the step does nothing at all
    ensures !cfg.useMessageContext ==> r.handler == h && r.context == ctx && r.trace == []
    // only the two flags may change, and only from false to true
    ensures r.handler.(messageIsRepeated := h.messageIsRepeated, cancelExecute := h.cancelExecute) == h
    ensures h.messageIsRepeated ==> r.handler.messageIsRepeated
    ensures !r.handler.messageIsRepeated ==> r.handler == h
    ensures !h.messageIsRepeated && r.handler.messageIsRepeated ==> r.handler.cancelExecute
    ensures h.cancelExecute ==> r.handler.cancelExecute
    ensures (h.messageIsRepeated ==> h.cancelExecute) ==> (r.handler.messageIsRepeated ==> r.handler.cancelExecute)
    // a repeat is flagged exactly when the gates are open and either rule fires
    ensures !h.messageIsRepeated ==>
              (r.handler.messageIsRepeated <==>
                 && cfg.useMessageContext
                 && GatesOpen(h, cfg, h.requestMessage.value, ctx)
                 && (|| CoreRepeat(LastRequest(ctx), h.requestMessage.value)
                     || SpecialSaysRepeat(h, cfg, h.requestMessage.value)))
    // the platform rule is asked only when the gates are open and the identity rule did not fire
    ensures (SpecialDeduplicationAction in r.trace) <==>
              && cfg.useMessageContext
              && GatesOpen(h, cfg, h.requestMessage.value, ctx)
              && !h.messageIsRepeated
              && !CoreRepeat(LastRequest(ctx), h.requestMessage.value)
              && cfg.specialDeduplicationAction.Some?
    ensures (OmitRepeatedMessageFunc in r.trace) <==>
              cfg.useMessageContext && cfg.omitRepeatedMessageFunc.Some?
    // the request is appended once when it is admitted with a known type; the history is otherwise untouched
    ensures r.context.responseMessages == ctx.responseMessages
    ensures cfg.useMessageContext && !r.handler.messageIsRepeated && h.requestMessage.value.msgType != Unknown ==>
              r.context == InsertRequest(ctx, h.requestMessage.value, cfg.retention)
    ensures !cfg.useMessageContext || r.handler.messageIsRepeated || h.requestMessage.value.msgType == Unknown ==>
              r.context == ctx
  {
    if !cfg.useMessageContext then
      Admission(h, ctx, [])
    else
      var req := h.requestMessage.value;
      var omit := cfg.omitRepeatedMessageFunc.None? || cfg.omitRepeatedMessageFunc.value(req);
      var asked := if cfg.omitRepeatedMessageFunc.Some? then [OmitRepeatedMessageFunc] else [];
      var checked :=
        if omit && h.omitRepeatedMessage && |ctx.requestMessages| > 0 then
          CheckRepeat(h, cfg, req, ctx.requestMessages[|ctx.requestMessages| - 1])
        else
          Checked(h, []);
      var h1 := checked.handler;
      var ctx1 :=
        if !h1.messageIsRepeated && req.msgType != Unknown then InsertRequest(ctx, req, cfg.retention)
        else ctx;
      Admission(h1, ctx1, asked + checked.trace)
  }

  /**
    `CommonInitialize`: switches deduplication on, lets the platform's `Init`
    (given as the state change it makes) bind the request, then runs the
    deduplication block.
   */
  function CommonInitialize(h: Handler, cfg: Config, ctx: MessageContext, init: Handler -> Handler): (r: Admission)
    requires cfg.useMessageContext ==> init(h.(omitRepeatedMessage := true)).requestMessage.Some?
    ensures r.handler.requestMessage == init(h.(omitRepeatedMessage := true)).requestMessage
    ensures r.handler.omitRepeatedMessage == init(h.(omitRepeatedMessage := true)).omitRepeatedMessage
    ensures (init(h.(omitRepeatedMessage := true)).messageIsRepeated ==> init(h.(omitRepeatedMessage := true)).cancelExecute) ==>
              (r.handler.messageIsRepeated ==> r.handler.cancelExecute)
  {
    Deduplicate(init(h.(omitRepeatedMessage := true)), cfg, ctx)
  }

  /** An `Init` that binds the request and changes nothing else. */
  function BindRequest(req: Request): Handler -> Handler {
    (g: Handler) => g.(requestMessage := Some(req))
  }

  /**
    Deduplication is on by default: after `CommonInitialize` with an `Init`
    that only binds the request, the flag is set and a request that matches
    the account's last one is flagged as a repeat.
   */
  lemma OmitRepeatedMessageDefaultsOn(h: Handler, cfg: Config, ctx: MessageContext, req: Request)
    requires cfg.useMessageContext && OmitFuncAllows(cfg, req) && !h.messageIsRepeated
    requires |ctx.requestMessages| > 0 && CoreRepeat(LastRequest(ctx), req)
    ensures CommonInitialize(h, cfg, ctx, BindRequest(req)).handler.omitRepeatedMessage
    ensures CommonInitialize(h, cfg, ctx, BindRequest(req)).handler.messageIsRepeated
    ensures CommonInitialize(h, cfg, ctx, BindRequest(req)).context == ctx
  {
    var g := BindRequest(req)(h.(omitRepeatedMessage := true));
    assert g.requestMessage == Some(req) && g.omitRepeatedMessage && !g.messageIsRepeated;
    assert GatesOpen(g, cfg, req, ctx);
  }

  /**
    With contexts on, a message that repeats the account's last request
    escapes the flag exactly when the per-message delegate declines it or the
    platform's `Init` cleared `OmitRepeatedMessage`: these are the only two
    switches for one message.
   */
  lemma RepeatEscapesOnlyWhenSwitchedOff(h: Handler, cfg: Config, ctx: MessageContext, init: Handler -> Handler)
    requires cfg.useMessageContext
    requires init(h.(omitRepeatedMessage := true)).requestMessage.Some?
    requires !init(h.(omitRepeatedMessage := true)).messageIsRepeated
    requires |ctx.requestMessages| > 0 && CoreRepeat(LastRequest(ctx), init(h.(omitRepeatedMessage := true)).requestMessage.value)
    ensures var g := init(h.(omitRepeatedMessage := true));
            !CommonInitialize(h, cfg, ctx, init).handler.messageIsRepeated <==>
              !OmitFuncAllows(cfg, g.requestMessage.value) || !g.omitRepeatedMessage
  {
  }

  /**
    The identity rule only adds to the message-id test when both ids are
    zero: then it falls back to creation time and type.
   */
  lemma SecondClauseOnlyForUnsetIds(last: Request, req: Request)
    ensures CoreRepeat(last, req) && !(last.msgId != 0 && last.msgId == req.msgId) ==>
              last.msgId == 0 && req.msgId == 0
    ensures last.msgId == req.msgId == 0 ==>
              (CoreRepeat(last, req) <==> last.createTime == req.createTime && last.msgType == req.msgType)
  {
  }
}

=== FILE: entities.dfy ===
/**
  The message records the handler works on: the parsed inbound request, the
  reply, and a nullable-value wrapper standing for C#'s `null`.
 */
module Entities {

  /** A value that may be absent; `None` plays the part of a C# `null`. */
  datatype Option<+T> = None | Some(value: T)

  /** The discriminator of an inbound message; `Unknown` is a legal value. */
  datatype RequestMsgType =
    | Unknown | Text | Location | Image | Voice | Video | ShortVideo | Link | Event | File | NeuChar

  /** A parsed inbound message. `createTime` is in seconds; the identifiers are nullable strings. */
  datatype Request = Request(
    msgId: int,
    createTime: int,
    msgType: RequestMsgType,
    fromUserName: Option<string>,
    toUserName: Option<string>)

  /** The reply variants the core distinguishes when rendering text. */
  datatype ResponseKind =
    | Plain                                 // an ordinary reply, rendered through the final document
    | NoResponse                            // the "send nothing" marker
    | Success(returnText: Option<string>)   // the success sentinel with its literal return text

  /** A reply built for a request. */
  datatype Response = Response(
    kind: ResponseKind,
    fromUserName: Option<string>,
    toUserName: Option<string>)

  /** `string.IsNullOrEmpty`. */
  predicate IsNullOrEmpty(s: Option<string>) {
    s.None? || s.value == ""
  }

  /** A NeuChar platform request: its type is fixed by the class, whatever the payload held. */
  function NeuCharRequest(msgId: int, createTime: int, fromUserName: Option<string>, toUserName: Option<string>): (r: Request)
    ensures r.msgType != Unknown
    ensures r.msgId == msgId && r.createTime == createTime
    ensures r.fromUserName == fromUserName && r.toUserName == toUserName
  {
    Request(msgId, createTime, NeuChar, fromUserName, toUserName)
  }
}

=== FILE: execution.dfy ===
/**
  The `Execute` lifecycle: the pre-execute hook, the build step inside a
  try/catch/finally, recording the reply into the account's history, and the
  post-execute hook run by the finally clause. The hooks are the platform's
  code and enter as the state changes they make.
 */
module Execution {
  import opened Entities
  import opened MessageContext
  import opened Handler

  /** The three overridable steps of the lifecycle. `onExecuted` is taken not to throw. */
  datatype Hooks = Hooks(
    onExecuting: Handler -> HookResult,
    buildResponseMessage: Handler -> HookResult,
    onExecuted: Handler -> Handler)

  /** The handler state, history, hook trace and escaping exception left by a run. */
  datatype Run = Run(handler: Handler, context: MessageContext, trace: seq<Hook>, error: Option<Exception>)

  /** The reply is recorded: contexts are on, there is a reply, and it names its sender. */
  predicate RecordsResponse(cfg: Config, h: Handler): (r: bool)
    // nothing is recorded with contexts off, and a recorded reply always names a sender
    ensures !cfg.useMessageContext ==> !r
    ensures r ==> h.responseMessage.Some? && h.responseMessage.value.fromUserName.Some?
  {
    cfg.useMessageContext && h.responseMessage.Some? && !IsNullOrEmpty(h.responseMessage.value.fromUserName)
  }

  /** The `MessageHandlerException` a build failure is re-raised as. */
  function Wrap(e: Exception): (r: Exception)
    ensures r.MessageHandlerException? && r.inner == e
    ensures |r.message| == |ExecuteErrorPrefix| + |e.message|
    ensures r.message[..|ExecuteErrorPrefix|] == ExecuteErrorPrefix
    ensures r.message[|ExecuteErrorPrefix|..] == e.message
  {
    MessageHandlerException(ExecuteErrorPrefix + e.message, e)
  }

  /** Execution reaches the try block: not cancelled before or by the pre-execute hook, which returned. */
  predicate EntersTry(h: Handler, hooks: Hooks) {
    && !h.cancelExecute
    && hooks.onExecuting(h).Returned?
    && !hooks.onExecuting(h).handler.cancelExecute
  }

  /** The body of the try block, up to (not including) the finally clause. */
  function TryBlock(h: Handler, cfg: Config, ctx: MessageContext, hooks: Hooks): (r: Run)
    ensures r.trace == if h.requestMessage.None? then [] else [BuildResponseMessage]
    ensures r.context.requestMessages == ctx.requestMessages
    ensures r.context != ctx ==>
              && h.requestMessage.Some?
              && hooks.buildResponseMessage(h).Returned?
              && RecordsResponse(cfg, r.handler)
    ensures r.error.Some? <==> h.requestMessage.Some? && hooks.buildResponseMessage(h).Threw?
  {
    if h.requestMessage.None? then
      Run(h, ctx, [], None)
    else
      match hooks.buildResponseMessage(h)
      case Threw(h1, e) =>
        Run(h1, ctx, [BuildResponseMessage], Some(Wrap(e)))
      case Returned(h1) =>
        var ctx1 := if RecordsResponse(cfg, h1) then InsertResponse(ctx, h1.responseMessage.value, cfg.retention) else ctx;
        Run(h1, ctx1, [BuildResponseMessage], None)
  }

  /**
    `Execute`: returns at once if execution is cancelled; otherwise runs the
    pre-execute hook (whose exception escapes as is) and checks cancellation
    again; otherwise enters the try block, and the post-execute hook runs in
    the finally clause whichever way the try block ends.
   */
  function Execute(h: Handler, cfg: Config, ctx: MessageContext, hooks: Hooks): (r: Run)
    // cancelled beforehand: no hook runs and nothing changes
    ensures h.cancelExecute ==> r.trace == [] && r.handler == h && r.context == ctx && r.error.None?
    // the hooks only ever run in lifecycle order
    ensures || r.trace == []
            || r.trace == [OnExecuting]
            || r.trace == [OnExecuting, OnExecuted]
            || r.trace == [OnExecuting, BuildResponseMessage, OnExecuted]
    ensures (OnExecuting in r.trace) <==> !h.cancelExecute
    // the post-execute hook runs once exactly when the try block was entered
    ensures multiset(r.trace)[OnExecuted] == if EntersTry(h, hooks) then 1 else 0
    // the build step runs only inside the try block, and only with a bound request
    ensures (BuildResponseMessage in r.trace) <==>
              EntersTry(h, hooks) && hooks.onExecuting(h).handler.requestMessage.Some?
    // the final state is what the last hook that ran left: a cancelling pre-execute hook ends the run,
    // otherwise the post-execute hook sees the built state, or the bound-less state if nothing was built
    ensures !h.cancelExecute && hooks.onExecuting(h).Returned? && hooks.onExecuting(h).handler.cancelExecute ==>
              r.handler == hooks.onExecuting(h).handler
    ensures EntersTry(h, hooks) && hooks.onExecuting(h).handler.requestMessage.None? ==>
              r.handler == hooks.onExecuted(hooks.onExecuting(h).handler)
    ensures EntersTry(h, hooks) && hooks.onExecuting(h).handler.requestMessage.Some? &&
            hooks.buildResponseMessage(hooks.onExecuting(h).handler).Returned? ==>
              r.handler == hooks.onExecuted(hooks.buildResponseMessage(hooks.onExecuting(h).handler).handler)
    // an exception from the pre-execute hook escapes unwrapped; a build exception is wrapped in the catch
    // and re-raised after the finally
    ensures !h.cancelExecute && hooks.onExecuting(h).Threw? ==>
              r.error == Some(hooks.onExecuting(h).error) && r.handler == hooks.onExecuting(h).handler
    ensures EntersTry(h, hooks) && hooks.onExecuting(h).handler.requestMessage.Some? &&
            hooks.buildResponseMessage(hooks.onExecuting(h).handler).Threw? ==>
              var failed := hooks.buildResponseMessage(hooks.onExecuting(h).handler);
              r.error == Some(Wrap(failed.error)) && r.handler == hooks.onExecuted(failed.handler)
    ensures r.error.Some? <==>
              || (!h.cancelExecute && hooks.onExecuting(h).Threw?)
              || (&& EntersTry(h, hooks)
                  && hooks.onExecuting(h).handler.requestMessage.Some?
                  && hooks.buildResponseMessage(hooks.onExecuting(h).handler).Threw?)
    // the request history is never touched; the reply is appended only after a successful build
    ensures r.context.requestMessages == ctx.requestMessages
    ensures r.context != ctx ==>
              && EntersTry(h, hooks)
              && hooks.onExecuting(h).handler.requestMessage.Some?
              && hooks.buildResponseMessage(hooks.onExecuting(h).handler).Returned?
    ensures EntersTry(h, hooks) && hooks.onExecuting(h).handler.requestMessage.Some? &&
            hooks.buildResponseMessage(hooks.onExecuting(h).handler).Returned? ==>
              var built := hooks.buildResponseMessage(hooks.onExecuting(h).handler).handler;
              r.context == if RecordsResponse(cfg, built)
                           then InsertResponse(ctx, built.responseMessage.value, cfg.retention)
                           else ctx
  {
    if h.cancelExecute then
      Run(h, ctx, [], None)
    else
      match hooks.onExecuting(h)
      case Threw(h1, e) => Run(h1, ctx, [OnExecuting], Some(e))
      case Returned(h1) =>
        if h1.cancelExecute then
          Run(h1, ctx, [OnExecuting], None)
        else
          var tried := TryBlock(h1, cfg, ctx, hooks);
          // finally: the post-execute hook sees whatever state the try block left
          Run(hooks.onExecuted(tried.handler), tried.context, [OnExecuting] + tried.trace + [OnExecuted], tried.error)
  }
}

=== FILE: handler.dfy ===
/**
  The state of one `MessageHandler` invocation, the switches it reads, the
  extension hooks it calls, and its two small accessors: the reply text and
  the reply factory.
 */
module Handler {
  import opened Entities
  import opened MessageContext

  /** The mutable flags and messages of one handler instance. */
  datatype Handler = Handler(
    requestMessage: Option<Request>,
    responseMessage: Option<Response>,
    omitRepeatedMessage: bool,
    messageIsRepeated: bool,
    cancelExecute: bool,
    textResponseMessage: Option<string>)   // the backing field of TextResponseMessage

  /** A newly constructed handler: every flag off, nothing bound. */
  const Fresh := Handler(None, None, false, false, false, None)

  /**
    The switches in force while a message is handled: the global context
    switch, the registry's retention, and the two deduplication delegates
    (`None` is a null delegate).
   */
  datatype Config = Config(
    useMessageContext: bool,
    retention: Retention,
    omitRepeatedMessageFunc: Option<Request -> bool>,
    specialDeduplicationAction: Option<(Request, Handler) -> bool>)

  /** The extension points whose invocation the model records, in the order they ran. */
  datatype Hook =
    | OmitRepeatedMessageFunc
    | SpecialDeduplicationAction
    | OnExecuting
    | BuildResponseMessage
    | OnExecuted

  /** An exception: one raised by a hook, or the handler's wrapper around one. */
  datatype Exception =
    | Raised(message: string)
    | MessageHandlerException(message: string, inner: Exception)

  /** How a hook that may throw ended, with the handler state it left behind. */
  datatype HookResult =
    | Returned(handler: Handler)
    | Threw(handler: Handler, error: Exception)

  /** The message prefix `Execute` puts in front of a wrapped build failure. */
  const ExecuteErrorPrefix := "MessageHandler中Execute()过程发生错误："

  /** Flags the current message as a repeat, which also cancels execution. */
  function MarkRepeatedMessage(h: Handler): (r: Handler)
    ensures r.messageIsRepeated && r.cancelExecute
    ensures r.(messageIsRepeated := h.messageIsRepeated, cancelExecute := h.cancelExecute) == h
  {
    h.(cancelExecute := true, messageIsRepeated := true)
  }

  /** What a read of `TextResponseMessage` returns, and the backing field after the read. */
  datatype TextRead = TextRead(text: string, stored: Option<string>)

  /**
    The getter of `TextResponseMessage`. A success sentinel's return text
    overwrites the backing field; an explicitly set text wins next; with no
    reply, or a no-response marker, the text is empty; otherwise it is the
    final document rendered as a string (empty if there is none).
    `finalDocument` stands for the serialised final response document.
   */
  function TextResponseMessage(h: Handler, finalDocument: Option<string>): (r: TextRead)
    ensures (h.responseMessage.Some? && h.responseMessage.value.kind.Success?) ==>
              r.stored == h.responseMessage.value.kind.returnText
    ensures !(h.responseMessage.Some? && h.responseMessage.value.kind.Success?) ==>
              r.stored == h.textResponseMessage
    ensures r.stored.Some? ==> r.text == r.stored.value
    ensures (r.stored.None? && (h.responseMessage.None? || h.responseMessage.value.kind.NoResponse?)) ==>
              r.text == ""
    ensures (r.stored.None? && h.responseMessage.Some? && !h.responseMessage.value.kind.NoResponse?) ==>
              r.text == (if finalDocument.Some? then finalDocument.value else "")
  {
    var stored :=
      match h.responseMessage
      case Some(Response(Success(returnText), _, _)) => returnText
      case _ => h.textResponseMessage;
    if stored.None? && (h.responseMessage.None? || h.responseMessage.value.kind.NoResponse?) then
      TextRead("", stored)
    else if stored.None? then
      TextRead(if finalDocument.Some? then finalDocument.value else "", stored)
    else
      TextRead(stored.value, stored)
  }

  /** The setter of `TextResponseMessage`: only the backing field changes. */
  function SetTextResponseMessage(h: Handler, text: Option<string>): (r: Handler)
    ensures r.textResponseMessage == text
    ensures r.(textResponseMessage := h.textResponseMessage) == h
  {
    h.(textResponseMessage := text)
  }

  /** Outside a success sentinel, a text set explicitly is exactly what is read back. */
  lemma ReadAfterSet(h: Handler, text: string, finalDocument: Option<string>)
    requires !(h.responseMessage.Some? && h.responseMessage.value.kind.Success?)
    ensures TextResponseMessage(SetTextResponseMessage(h, Some(text)), finalDocument) == TextRead(text, Some(text))
  {
  }

  /** A success sentinel's return text wins over any text set before the read. */
  lemma SuccessOverridesSetText(h: Handler, text: Option<string>, finalDocument: Option<string>)
    requires h.responseMessage.Some? && h.responseMessage.value.kind.Success?
    ensures TextResponseMessage(SetTextResponseMessage(h, text), finalDocument) == TextResponseMessage(h, finalDocument)
  {
  }

  /** The getter's write-back is stable: reading again after it returns the same text and stores the same value. */
  lemma ReadIsStable(h: Handler, finalDocument: Option<string>)
    ensures var first := TextResponseMessage(h, finalDocument);
            TextResponseMessage(SetTextResponseMessage(h, first.stored), finalDocument) == first
  {
  }

  /** The platform-specific construction of a reply of the given kind for a request. */
  type Enlightener = (Request, ResponseKind) -> Response

  /** An enlightener that addresses every reply back to the request's sender. */
  ghost predicate AddressesReplyToSender(enlightener: Enlightener) {
    forall req: Request, kind: ResponseKind {:trigger enlightener(req, kind)} ::
      enlightener(req, kind).kind == kind &&
      enlightener(req, kind).toUserName == req.fromUserName &&
      enlightener(req, kind).fromUserName == req.toUserName
  }

  /** `CreateResponseMessage`: null without a bound request, otherwise the enlightener's reply. */
  function CreateResponseMessage(h: Handler, kind: ResponseKind, enlightener: Enlightener): (r: Option<Response>)
    ensures r.None? <==> h.requestMessage.None?
    ensures r.Some? && AddressesReplyToSender(enlightener) ==>
              r.value.kind == kind &&
              r.value.toUserName == h.requestMessage.value.fromUserName &&
              r.value.fromUserName == h.requestMessage.value.toUserName
  {
    match h.requestMessage
    case None => None
    case Some(req) => Some(enlightener(req, kind))
  }
}

=== FILE: message_context.dfy ===
/**
  The per-account conversation history: the requests and the replies seen for
  one account, oldest first. How many entries are kept is decided by the
  global context registry, whose eviction policy is not part of this model; it
  enters here as a `Retention` parameter.
 */
module MessageContext {
  import opened Entities

  /** How many entries a history keeps after an insertion. */
  datatype Retention = Unbounded | AtMost(limit: nat)

  /** The length a history of `n` entries is cut down to. */
  function Retained(n: nat, retention: Retention): nat {
    match retention
    case Unbounded => n
    case AtMost(k) => if n <= k then n else k
  }

  /** `s` is what is left of `t` after dropping some of its oldest entries. */
  ghost predicate IsSuffixOf<T>(s: seq<T>, t: seq<T>) {
    |s| <= |t| && s == t[|t| - |s|..]
  }

  /** Appends `m` as the newest entry, then evicts from the front down to the retention bound. */
  function Append<T>(entries: seq<T>, m: T, retention: Retention): (r: seq<T>)
    ensures |r| == Retained(|entries| + 1, retention)
    ensures IsSuffixOf(r, entries + [m])
    ensures |r| > 0 ==> r[|r| - 1] == m
  {
    var all := entries + [m];
    all[|all| - Retained(|all|, retention)..]
  }

  /** Appending to a full history evicts exactly the oldest entry. */
  lemma {:induction false} AppendEvictsOldest<T>(entries: seq<T>, m: T, k: nat)
    requires 0 < k == |entries|
    ensures Append(entries, m, AtMost(k)) == entries[1..] + [m]
  {
    var r := Append(entries, m, AtMost(k));
    assert |r| == k;
    forall i | 0 <= i < k
      ensures r[i] == (entries[1..] + [m])[i]
    {
      assert r[i] == (entries + [m])[i + 1];
    }
  }

  /** The history of one account. */
  datatype MessageContext = MessageContext(requestMessages: seq<Request>, responseMessages: seq<Response>)

  /** A context holding no messages. */
  const Empty := MessageContext([], [])

  /** The most recently recorded request. */
  function LastRequest(ctx: MessageContext): Request
    requires |ctx.requestMessages| > 0
  {
    ctx.requestMessages[|ctx.requestMessages| - 1]
  }

  /** `InsertMessage` for a request: the request becomes the newest entry, replies untouched. */
  function InsertRequest(ctx: MessageContext, req: Request, retention: Retention): (r: MessageContext)
    ensures r.responseMessages == ctx.responseMessages
    ensures IsSuffixOf(r.requestMessages, ctx.requestMessages + [req])
    ensures |r.requestMessages| == Retained(|ctx.requestMessages| + 1, retention)
    ensures |r.requestMessages| > 0 ==> LastRequest(r) == req
  {
    ctx.(requestMessages := Append(ctx.requestMessages, req, retention))
  }

  /** While a history has room, inserting a request evicts nothing. */
  lemma InsertRequestWithRoom(ctx: MessageContext, req: Request, retention: Retention)
    requires retention.AtMost? ==> |ctx.requestMessages| < retention.limit
    ensures InsertRequest(ctx, req, retention) == MessageContext(ctx.requestMessages + [req], ctx.responseMessages)
  {
  }

  /** `InsertMessage` for a reply: the reply becomes the newest entry, requests untouched. */
  function InsertResponse(ctx: MessageContext, resp: Response, retention: Retention): (r: MessageContext)
    ensures r.requestMessages == ctx.requestMessages
    ensures IsSuffixOf(r.responseMessages, ctx.responseMessages + [resp])
    ensures |r.responseMessages| == Retained(|ctx.responseMessages| + 1, retention)
  {
    ctx.(responseMessages := Append(ctx.responseMessages, resp, retention))
  }
}

=== FILE: pipeline.dfy ===
/**
  One inbound delivery end to end: construction (request binding and
  deduplication) followed by `Execute`, and the properties that span both
  steps or several deliveries to the same account.
 */
module Pipeline {
  import opened Entities
  import opened MessageContext
  import opened Handler
  import opened Deduplication
  import opened Execution

  /**
    Constructs a handler from a fresh state with the platform's `Init`, then
    executes it: the path of the two constructors that run `CommonInitialize`.
   */
  function Handle(cfg: Config, ctx: MessageContext, init: Handler -> Handler, hooks: Hooks): (r: Run)
    requires cfg.useMessageContext ==> init(Fresh.(omitRepeatedMessage := true)).requestMessage.Some?
    // a repeat runs none of the lifecycle hooks, raises nothing and records no reply
    ensures var admitted := CommonInitialize(Fresh, cfg, ctx, init);
            admitted.handler.messageIsRepeated && admitted.handler.cancelExecute ==>
              && r.handler == admitted.handler
              && r.context == admitted.context
              && r.trace == admitted.trace
              && r.error.None?
    // construction touches only the request history, execution only the reply history
    ensures r.context.requestMessages == CommonInitialize(Fresh, cfg, ctx, init).context.requestMessages
    ensures r.context.responseMessages != ctx.responseMessages ==> BuildResponseMessage in r.trace
  {
    var admitted := CommonInitialize(Fresh, cfg, ctx, init);
    var run := Execute(admitted.handler, cfg, admitted.context, hooks);
    Run(run.handler, run.context, admitted.trace + run.trace, run.error)
  }

  /** The state a fresh handler is in once `CommonInitialize` has run an `Init` that only binds `req`. */
  function Bound(req: Request): Handler {
    Fresh.(requestMessage := Some(req), omitRepeatedMessage := true)
  }

  /** The switches under which a delivery of `req` goes through deduplication. */
  predicate DedupOn(cfg: Config, req: Request) {
    cfg.useMessageContext && OmitFuncAllows(cfg, req)
  }

  /** With deduplication at its defaults, `req` is flagged against the account's history. */
  predicate IsRedelivery(cfg: Config, ctx: MessageContext, req: Request) {
    && cfg.useMessageContext
    && OmitFuncAllows(cfg, req)
    && |ctx.requestMessages| > 0
    && (CoreRepeat(LastRequest(ctx), req) || SpecialSaysRepeat(Bound(req), cfg, req))
  }

  /**
    The account's history after one delivery of `req`, stated directly: the
    request is recorded unless contexts are off, it is flagged as a
    redelivery, or its type is unknown.
   */
  function Deliver(cfg: Config, ctx: MessageContext, req: Request): (r: MessageContext)
    ensures r.responseMessages == ctx.responseMessages
    // a delivery adds nothing but `req`, and drops only the oldest entries
    ensures r == ctx || IsSuffixOf(r.requestMessages, ctx.requestMessages + [req])
  {
    if !cfg.useMessageContext || IsRedelivery(cfg, ctx, req) || req.msgType == Unknown then ctx
    else InsertRequest(ctx, req, cfg.retention)
  }

  /** The direct statement agrees with constructing a handler whose `Init` only binds the request. */
  lemma DeliverIsCommonInitialize(cfg: Config, ctx: MessageContext, req: Request)
    ensures CommonInitialize(Fresh, cfg, ctx, BindRequest(req)).context == Deliver(cfg, ctx, req)
    ensures CommonInitialize(Fresh, cfg, ctx, BindRequest(req)).handler.messageIsRepeated <==>
              IsRedelivery(cfg, ctx, req)
  {
    var h := Bound(req);
    assert h == BindRequest(req)(Fresh.(omitRepeatedMessage := true));
    assert h.requestMessage == Some(req) && h.omitRepeatedMessage && !h.messageIsRepeated;
  }

  /**
    Were the platform's `Init` to record the current message itself (as the
    documentation of `Init` asks when contexts are on), the comparison that
    follows would find that very message as the account's last request, and
    every message would be flagged as its own repeat.
   */
  lemma RecordingInInitFlagsItsOwnMessage(cfg: Config, ctx: MessageContext, req: Request)
    requires cfg.useMessageContext && OmitFuncAllows(cfg, req) && cfg.retention != AtMost(0)
    ensures var recorded := InsertRequest(ctx, req, cfg.retention);
            && Deduplicate(Bound(req), cfg, recorded).handler.messageIsRepeated
            && Deduplicate(Bound(req), cfg, recorded).context == recorded
  {
    var recorded := InsertRequest(ctx, req, cfg.retention);
    assert |recorded.requestMessages| > 0 && LastRequest(recorded) == req;
    assert CoreRepeat(req, req);
  }

  /** A NeuChar platform request is never turned away for its type: unless flagged, it is recorded. */
  lemma NeuCharRequestIsRecorded(cfg: Config, ctx: MessageContext, msgId: int, createTime: int, fromUserName: Option<string>, toUserName: Option<string>)
    requires cfg.useMessageContext
    requires !IsRedelivery(cfg, ctx, NeuCharRequest(msgId, createTime, fromUserName, toUserName))
    ensures var req := NeuCharRequest(msgId, createTime, fromUserName, toUserName);
            Deliver(cfg, ctx, req) == InsertRequest(ctx, req, cfg.retention)
  {
  }

  /** The history after delivering each request of `reqs` in order. */
  function DeliverAll(cfg: Config, ctx: MessageContext, reqs: seq<Request>): (r: MessageContext)
    ensures r.responseMessages == ctx.responseMessages
    decreases |reqs|
  {
    if reqs == [] then ctx else DeliverAll(cfg, Deliver(cfg, ctx, reqs[0]), reqs[1..])
  }

  /**
    A request that is not itself a redelivery and has a known type becomes
    the account's last request (as long as the history keeps anything), so a
    redelivery of the same message is flagged as a repeat and leaves the
    history as it was.
   */
  lemma {:induction false} RedeliveryIsFlagged(cfg: Config, ctx: MessageContext, req: Request)
    requires DedupOn(cfg, req) && req.msgType != Unknown
    requires cfg.retention != AtMost(0)
    requires !IsRedelivery(cfg, ctx, req)
    ensures Deliver(cfg, ctx, req) == InsertRequest(ctx, req, cfg.retention)
    ensures CommonInitialize(Fresh, cfg, Deliver(cfg, ctx, req), BindRequest(req)).handler.messageIsRepeated
    ensures Deliver(cfg, Deliver(cfg, ctx, req), req) == Deliver(cfg, ctx, req)
  {
    var once := Deliver(cfg, ctx, req);
    assert once == InsertRequest(ctx, req, cfg.retention);
    assert |once.requestMessages| > 0;
    assert LastRequest(once) == req;
    assert CoreRepeat(req, req);
    OmitRepeatedMessageDefaultsOn(Fresh, cfg, once, req);
  }

  /** One delivery keeps a history within a bounded retention. */
  lemma DeliverKeepsBound(cfg: Config, ctx: MessageContext, req: Request, k: nat)
    requires cfg.retention == AtMost(k)
    requires |ctx.requestMessages| <= k
    ensures |Deliver(cfg, ctx, req).requestMessages| <= k
  {
  }

  /** No history grows past a bounded retention, however many deliveries it sees. */
  lemma {:induction false} HistoryStaysBounded(cfg: Config, ctx: MessageContext, reqs: seq<Request>, k: nat)
    requires cfg.retention == AtMost(k)
    requires |ctx.requestMessages| <= k
    ensures |DeliverAll(cfg, ctx, reqs).requestMessages| <= k
    decreases |reqs|
  {
    if reqs != [] {
      var next := Deliver(cfg, ctx, reqs[0]);
      DeliverKeepsBound(cfg, ctx, reqs[0], k);
      HistoryStaysBounded(cfg, next, reqs[1..], k);
    }
  }

  /** Every message of the history after a run of deliveries was already there or was delivered. */
  lemma {:induction false} HistoryHoldsOnlyDeliveries(cfg: Config, ctx: MessageContext, reqs: seq<Request>, m: Request)
    requires m in DeliverAll(cfg, ctx, reqs).requestMessages
    ensures m in ctx.requestMessages || m in reqs
    decreases |reqs|
  {
    if reqs != [] {
      var next := Deliver(cfg, ctx, reqs[0]);
      HistoryHoldsOnlyDeliveries(cfg, next, reqs[1..], m);
      if m in next.requestMessages && next != ctx {
        var all := ctx.requestMessages + [reqs[0]];
        assert next.requestMessages == all[|all| - |next.requestMessages|..];
        assert m in all;
      }
    }
  }

  /** A request that does not repeat the last one, into a history with room, is appended as is. */
  lemma DeliverNew(cfg: Config, ctx: MessageContext, req: Request)
    requires cfg.useMessageContext && cfg.specialDeduplicationAction.None? && req.msgType != Unknown
    requires cfg.retention.AtMost? ==> |ctx.requestMessages| < cfg.retention.limit
    requires |ctx.requestMessages| > 0 ==> !CoreRepeat(LastRequest(ctx), req)
    ensures Deliver(cfg, ctx, req) == MessageContext(ctx.requestMessages + [req], ctx.responseMessages)
  {
    InsertRequestWithRoom(ctx, req, cfg.retention);
  }

  /** Delivering a new request first, then `reqs`, is delivering `reqs` to the history with the request appended. */
  lemma DeliverAllNew(cfg: Config, ctx: MessageContext, req: Request, reqs: seq<Request>)
    requires cfg.useMessageContext && cfg.specialDeduplicationAction.None? && req.msgType != Unknown
    requires cfg.retention.AtMost? ==> |ctx.requestMessages| < cfg.retention.limit
    requires |ctx.requestMessages| > 0 ==> !CoreRepeat(LastRequest(ctx), req)
    ensures DeliverAll(cfg, ctx, [req] + reqs) ==
            DeliverAll(cfg, MessageContext(ctx.requestMessages + [req], ctx.responseMessages), reqs)
  {
    DeliverNew(cfg, ctx, req);
    DeliverAllCons(cfg, ctx, req, reqs);
  }

  /** A request that repeats the last one leaves the history as it was, whatever its type. */
  lemma DeliverRepeat(cfg: Config, ctx: MessageContext, req: Request)
    requires DedupOn(cfg, req)
    requires |ctx.requestMessages| > 0 && CoreRepeat(LastRequest(ctx), req)
    ensures Deliver(cfg, ctx, req) == ctx
  {
  }

  /** Delivering `reqs` after `m` is delivering `reqs` to the history `m` left behind. */
  lemma DeliverAllCons(cfg: Config, ctx: MessageContext, m: Request, reqs: seq<Request>)
    ensures DeliverAll(cfg, ctx, [m] + reqs) == DeliverAll(cfg, Deliver(cfg, ctx, m), reqs)
  {
    assert ([m] + reqs)[1..] == reqs;
  }

  /** The scenario's requirements: deduplication at its defaults, a history of five, ids 1 to 4. */
  predicate ScenarioSetting(cfg: Config, m1: Request, m2: Request, m3: Request, m4: Request) {
    && cfg.useMessageContext && cfg.retention == AtMost(5)
    && cfg.omitRepeatedMessageFunc.None? && cfg.specialDeduplicationAction.None?
    && m1.msgType != Unknown && m2.msgType != Unknown && m3.msgType != Unknown && m4.msgType != Unknown
    && m1.msgId == 1 && m2.msgId == 2 && m3.msgId == 3 && m4.msgId == 4
  }

  /** No request of `reqs` repeats the one delivered just before it, the first being compared with `last`. */
  predicate NoImmediateRepeat(last: Option<Request>, reqs: seq<Request>)
    decreases |reqs|
  {
    reqs == [] ||
    ((last.None? || !CoreRepeat(last.value, reqs[0])) && NoImmediateRepeat(Some(reqs[0]), reqs[1..]))
  }

  /** The account's last request, if it has one. */
  function LastOf(ctx: MessageContext): Option<Request> {
    if |ctx.requestMessages| > 0 then Some(LastRequest(ctx)) else None
  }

  /**
    The conditions under which a run of requests is appended in full: no
    platform rule, contexts on, known types, room for the whole run, and no
    request repeating the one before it.
   */
  predicate FreshRun(cfg: Config, ctx: MessageContext, reqs: seq<Request>) {
    && cfg.useMessageContext && cfg.specialDeduplicationAction.None?
    && (forall i | 0 <= i < |reqs| :: reqs[i].msgType != Unknown)
    && (cfg.retention.AtMost? ==> |ctx.requestMessages| + |reqs| <= cfg.retention.limit)
    && NoImmediateRepeat(LastOf(ctx), reqs)
  }

  /** The first request of a fresh run is appended, and the rest is a fresh run from there. */
  lemma FreshRunStep(cfg: Config, ctx: MessageContext, reqs: seq<Request>)
    requires FreshRun(cfg, ctx, reqs) && reqs != []
    ensures var next := MessageContext(ctx.requestMessages + [reqs[0]], ctx.responseMessages);
            && DeliverAll(cfg, ctx, reqs) == DeliverAll(cfg, next, reqs[1..])
            && FreshRun(cfg, next, reqs[1..])
  {
    var next := MessageContext(ctx.requestMessages + [reqs[0]], ctx.responseMessages);
    assert [reqs[0]] + reqs[1..] == reqs;
    DeliverAllNew(cfg, ctx, reqs[0], reqs[1..]);
    assert LastOf(next) == Some(reqs[0]);
  }

  /** Moving the first element of `t` onto the end of `s` keeps the concatenation. */
  lemma SplitFirst<T>(s: seq<T>, t: seq<T>)
    requires t != []
    ensures (s + [t[0]]) + t[1..] == s + t
  {
    assert [t[0]] + t[1..] == t;
  }

  /** A fresh run is appended in full. */
  lemma {:induction false} DeliverAllFresh(cfg: Config, ctx: MessageContext, reqs: seq<Request>)
    requires FreshRun(cfg, ctx, reqs)
    ensures DeliverAll(cfg, ctx, reqs) == MessageContext(ctx.requestMessages + reqs, ctx.responseMessages)
    decreases |reqs|
  {
    if reqs != [] {
      var next := MessageContext(ctx.requestMessages + [reqs[0]], ctx.responseMessages);
      FreshRunStep(cfg, ctx, reqs);
      DeliverAllFresh(cfg, next, reqs[1..]);
      SplitFirst(ctx.requestMessages, reqs);
    } else {
      assert ctx.requestMessages + reqs == ctx.requestMessages;
    }
  }

  /** Delivering `a` and then `b` is delivering `a + b`. */
  lemma {:induction false} DeliverAllConcat(cfg: Config, ctx: MessageContext, a: seq<Request>, b: seq<Request>)
    ensures DeliverAll(cfg, ctx, a + b) == DeliverAll(cfg, DeliverAll(cfg, ctx, a), b)
    decreases |a|
  {
    if a != [] {
      assert (a + b)[0] == a[0];
      assert (a + b)[1..] == a[1..] + b;
      DeliverAllConcat(cfg, Deliver(cfg, ctx, a[0]), a[1..], b);
    } else {
      assert a + b == b;
    }
  }

  /** Three known-type requests, each different from the one before, are a fresh run into an empty history. */
  lemma FreshTriple(cfg: Config, x: Request, y: Request, z: Request)
    requires cfg.useMessageContext && cfg.specialDeduplicationAction.None?
    requires x.msgType != Unknown && y.msgType != Unknown && z.msgType != Unknown
    requires cfg.retention.AtMost? ==> 3 <= cfg.retention.limit
    requires !CoreRepeat(x, y) && !CoreRepeat(y, z)
    ensures FreshRun(cfg, Empty, [x, y, z])
  {
    assert NoImmediateRepeat(Some(z), []);
    assert NoImmediateRepeat(Some(y), [z]);
    assert NoImmediateRepeat(Some(x), [y, z]);
    assert NoImmediateRepeat(None, [x, y, z]);
  }

  /** The first three deliveries of the scenario below each append their request. */
  lemma ScenarioHead(cfg: Config, m1: Request, m2: Request, m3: Request, m4: Request)
    requires ScenarioSetting(cfg, m1, m2, m3, m4)
    ensures DeliverAll(cfg, Empty, [m1, m2, m3]) == MessageContext([m1, m2, m3], [])
  {
    FreshTriple(cfg, m1, m2, m3);
    DeliverAllFresh(cfg, Empty, [m1, m2, m3]);
    assert Empty.requestMessages + [m1, m2, m3] == [m1, m2, m3];
  }

  /** The redelivery of the third message is dropped; the fourth is appended. */
  lemma ScenarioTail(cfg: Config, m1: Request, m2: Request, m3: Request, m4: Request)
    requires ScenarioSetting(cfg, m1, m2, m3, m4)
    ensures DeliverAll(cfg, MessageContext([m1, m2, m3], []), [m3, m4]).requestMessages == [m1, m2, m3, m4]
  {
    var c3, c4 := MessageContext([m1, m2, m3], []), MessageContext([m1, m2, m3, m4], []);
    assert Deliver(cfg, c3, m3) == c3 by {
      DeliverRepeat(cfg, c3, m3);
    }
    assert Deliver(cfg, c3, m4) == c4 by {
      DeliverNew(cfg, c3, m4);
      assert c3.requestMessages + [m4] == c4.requestMessages;
    }
    DeliverAllCons(cfg, c3, m4, []);
    DeliverAllCons(cfg, c3, m3, [m4]);
  }

  /**
    Four messages with distinct nonzero ids delivered as 1, 2, 3, a
    redelivery of 3, then 4, into an empty history that keeps five entries:
    the redelivery is dropped and four entries remain, in delivery order.
   */
  lemma ScenarioRedeliveredOnce(cfg: Config, m1: Request, m2: Request, m3: Request, m4: Request)
    requires ScenarioSetting(cfg, m1, m2, m3, m4)
    ensures DeliverAll(cfg, Empty, [m1, m2, m3, m3, m4]).requestMessages == [m1, m2, m3, m4]
  {
    var head, tail := [m1, m2, m3], [m3, m4];
    assert head + tail == [m1, m2, m3, m3, m4];
    DeliverAllConcat(cfg, Empty, head, tail);
    ScenarioHead(cfg, m1, m2, m3, m4);
    ScenarioTail(cfg, m1, m2, m3, m4);
  }

  /**
    Only the last request is compared: a message delivered again after
    another one is recorded a second time, even though the history still
    holds its first delivery.
   */
  lemma RedeliveryAfterAnotherIsRecorded(cfg: Config, a: Request, b: Request)
    requires cfg.useMessageContext && cfg.retention == Unbounded
    requires cfg.omitRepeatedMessageFunc.None? && cfg.specialDeduplicationAction.None?
    requires a.msgType != Unknown && b.msgType != Unknown
    requires a.msgId == 1 && b.msgId == 2
    ensures DeliverAll(cfg, Empty, [a, b, a]).requestMessages == [a, b, a]
  {
    FreshTriple(cfg, a, b, a);
    DeliverAllFresh(cfg, Empty, [a, b, a]);
    assert Empty.requestMessages + [a, b, a] == [a, b, a];
  }

  /**
    A repeated message is acknowledged with the empty reply text: with an
    `Init` that only binds the request, nothing sets a reply or a text.
   */
  lemma {:induction false} RepeatAnsweredWithEmptyText(cfg: Config, ctx: MessageContext, req: Request, hooks: Hooks, finalDocument: Option<string>)
    requires DedupOn(cfg, req)
    requires |ctx.requestMessages| > 0 && CoreRepeat(LastRequest(ctx), req)
    ensures Handle(cfg, ctx, BindRequest(req), hooks).trace == if cfg.omitRepeatedMessageFunc.Some? then [OmitRepeatedMessageFunc] else []
    ensures Handle(cfg, ctx, BindRequest(req), hooks).context == ctx
    ensures TextResponseMessage(Handle(cfg, ctx, BindRequest(req), hooks).handler, finalDocument).text == ""
  {
    OmitRepeatedMessageDefaultsOn(Fresh, cfg, ctx, req);
    var admitted := CommonInitialize(Fresh, cfg, ctx, BindRequest(req));
    assert admitted.handler.responseMessage.None? && admitted.handler.textResponseMessage.None?;
  }

  /**
    With the context switch on, a reply made by the factory for a request
    whose recipient id is set is recorded in the history when the build step
    returns it.
   */
  lemma FactoryReplyIsRecorded(cfg: Config, ctx: MessageContext, h: Handler, kind: ResponseKind, enlightener: Enlightener)
    requires cfg.useMessageContext && AddressesReplyToSender(enlightener)
    requires h.requestMessage.Some? && !IsNullOrEmpty(h.requestMessage.value.toUserName)
    ensures var built := h.(responseMessage := CreateResponseMessage(h, kind, enlightener));
            RecordsResponse(cfg, built)
  {
    var reply := CreateResponseMessage(h, kind, enlightener);
    assert reply.value == enlightener(h.requestMessage.value, kind);
  }

  /**
    An `Init` that clears the flag switches deduplication off for the
    message being constructed; a literal redelivery then passes admission and
    reaches the build step.
   */
  lemma DedupOffViaInitReachesBuild(cfg: Config, ctx: MessageContext, req: Request, hooks: Hooks)
    requires cfg.useMessageContext
    requires |ctx.requestMessages| > 0 && LastRequest(ctx) == req
    requires cfg.specialDeduplicationAction.None?
    requires forall g: Handler :: hooks.onExecuting(g) == Returned(g)  // the default, empty pre-execute hook
    ensures var init := (g: Handler) => g.(requestMessage := Some(req), omitRepeatedMessage := false);
            BuildResponseMessage in Handle(cfg, ctx, init, hooks).trace
  {
    var init := (g: Handler) => g.(requestMessage := Some(req), omitRepeatedMessage := false);
    var admitted := CommonInitialize(Fresh, cfg, ctx, init);
    assert !admitted.handler.messageIsRepeated;
    assert EntersTry(admitted.handler, hooks);
  }
}
